=== FILE: README.md ===
# Flux local ML pipeline: a verified model

Flux classifies Python code snippets as clean or malicious with a locally
trained text classifier. This project models the two parts of its
`ml_pipeline` scripts that hold logic of their own:

- **The local inference engine** (`FluxLocalEngine`). It checks that the model
  file exists, loads the classifier once, and turns the classifier's
  malicious-class probability for a snippet into a verdict: a status band
  (`SAFE`, `SUSPICIOUS`, `CRITICAL`), an integer risk score and the
  probability itself. Module `LocalInference` (`local_inference.dfy`).
- **The synthetic dataset generator.** It asks a generative model for batches
  of labelled examples and strips a Markdown code fence from each reply.
  Unparsable or failed replies are skipped. The non-empty batches are
  accumulated, with a 4-second pause between consecutive requests, and the
  dataset is written out when it is non-empty. Module `DatasetGenerator`
  (`dataset_generator.dfy`). It relies on module `PyText` (`py_text.dfy`), a
  model of Python's `str.strip()`, `str.startswith` and clamped slicing
  `s[i:j]`.

`Wrappers` (`wrappers.dfy`) holds the `Option` and `Result` types used for
the code's error paths.

Modelling choices:

- Probabilities are exact `real`s.
- The classifier is a value wrapping a total function from a snippet to its
  `(benign, malicious)` probability pair.
- The file system together with the unpickler is a `ModelStore` object. It
  maps each existing path to what loading it yields, and it counts load
  attempts. That count is what makes "no load is attempted for a missing
  path" a checked postcondition.
- The engine's `model` is a `const` field. It is assigned once, by the
  construction that succeeded, so no later call can change it.
  `PredictCode` is a function of the snippet and that field.
- The generative model is a function from request number to reply. The JSON
  parser is a function from text to an optional list of records.
- `main` is `GenerateDataset` with the number of iterations as a parameter;
  the script's value, 5, is the constant `Iterations` (`ScriptRun`).
- `time.sleep(4)` and each request are recorded in a trace of effects.
  Writing the CSV file is an optional output holding the dataset.

Two points where the code does something other than what one might expect,
and the model follows the code:

- The risk score is `int(p * 100)`, which truncates toward zero. It is not
  `round(p * 100)`: 0.999 scores 99, not 100 (`ScoreTruncates`). Truncation is
  what keeps every SAFE score at 39 or below; `round` would give SAFE with
  score 40 at p = 0.395. A score of 70 occurs in both the SUSPICIOUS band
  (p = 0.70) and the CRITICAL band (p = 0.705). That overlap comes from the
  0.70 bound shared by the strict `> 0.70` test
  (ml_pipeline/3_local_inference.py:34) and the inclusive `<= 0.70` test
  (ml_pipeline/3_local_inference.py:36). It would also occur with `round()`.
- The persisted model carries no version tag. Construction fails with the
  load error when the unpickler fails, or when anything else inside the
  `try` at ml_pipeline/3_local_inference.py:15-19 raises.

## Model

| member | source | states |
|---|---|---|
| `LocalInference.StatusOf` | ml_pipeline/3_local_inference.py:33-39 | CRITICAL exactly when p > 0.70, SUSPICIOUS exactly when 0.40 <= p <= 0.70, SAFE exactly when p < 0.40; the three bands cover every probability once |
| `LocalInference.StatusMonotone` | ml_pipeline/3_local_inference.py:34-39 | the severity of the band never decreases as the probability grows |
| `LocalInference.BandBoundaries` | ml_pipeline/3_local_inference.py:34-39 | 0.40 and 0.70 are both SUSPICIOUS; just above 0.70 is CRITICAL, just below 0.40 is SAFE |
| `LocalInference.Truncate` | ml_pipeline/3_local_inference.py:31 | Python `int()` on a number: truncation toward zero, within 1 of the argument and never farther from zero |
| `LocalInference.RiskScore` | ml_pipeline/3_local_inference.py:31 | for p >= 0 the score is the largest integer not above p * 100 (truncated, not rounded); for p in [0, 1] it lies in [0, 100] |
| `LocalInference.Score` | ml_pipeline/3_local_inference.py:31-44 | the verdict keeps the probability unchanged; its score agrees with its band (SAFE <= 39, SUSPICIOUS 40..70, CRITICAL >= 70 and <= 100 when p <= 1), for exact reals |
| `LocalInference.ScoreTruncates` | ml_pipeline/3_local_inference.py:31-39 | 0.999 scores 99; 0.705 is CRITICAL with score 70, the same score 0.70 gets as SUSPICIOUS |
| `LocalInference.LoadOf` | ml_pipeline/3_local_inference.py:16 | loading an existing path yields what the store holds for it, a missing path yields a load failure |
| `LocalInference.Construct` | ml_pipeline/3_local_inference.py:9-19 | not-found exactly when the path does not exist (carrying the path); load error exactly when it exists and loading fails; otherwise the loaded classifier |
| `LocalInference.MissingPathIgnoresLoads` | ml_pipeline/3_local_inference.py:9-13 | for a missing path the outcome is not-found whatever loading any file would yield: the existence check precedes the load |
| `LocalInference.ModelStore.Load` | ml_pipeline/3_local_inference.py:16 | one more load attempt, yielding what the store holds for the path |
| `LocalInference.Engine.constructor` | ml_pipeline/3_local_inference.py:16 | the engine holds the given classifier |
| `LocalInference.Engine.Open` | ml_pipeline/3_local_inference.py:5-19 | a missing path fails with not-found and attempts no load; an existing path is loaded exactly once, a failed load is a load error, a successful one gives a fresh engine holding the loaded classifier |
| `LocalInference.ModelStore.Exists` | ml_pipeline/3_local_inference.py:9 | `os.path.exists`: a path is missing exactly when constructing an engine on it fails with not-found |
| `LocalInference.Engine.OpenDefault` | ml_pipeline/3_local_inference.py:5-19 | construction with no argument opens "flux_local_model.pkl", with the same outcomes as `Open` |
| `LocalInference.Engine.PredictCode` | ml_pipeline/3_local_inference.py:21-45 | the reported probability is the classifier's malicious-class entry unchanged; status and risk score are the band and the truncated score of that probability and agree with each other; the status string is "CRITICAL", "SUSPICIOUS" or "SAFE" exactly by the thresholds; nothing is modified |
| `LocalInference.SameModelSameVerdict` | ml_pipeline/3_local_inference.py:21-45 | engines holding the same classifier give identical verdicts on every snippet |
| `PyText.Strip` | ml_pipeline/1_dataset_generator.py:50 | `str.strip()`: a slice of the input, never longer, with only whitespace cut before and after it, and no whitespace at either end |
| `PyText.StripTrimmed` | ml_pipeline/1_dataset_generator.py:50-54 | a string without surrounding whitespace is left unchanged by `strip()` |
| `PyText.StripIdempotent` | ml_pipeline/1_dataset_generator.py:50-54 | stripping twice is stripping once |
| `PyText.StartsWith` | ml_pipeline/1_dataset_generator.py:51-53 | `str.startswith`: true exactly when the prefix fits and agrees with the text character by character |
| `PyText.Slice` | ml_pipeline/1_dataset_generator.py:52-54 | Python `s[i:j]`: a contiguous piece of `s` starting at the clamped start, of length clamped stop minus clamped start or 0, never failing |
| `PyText.SliceDropsEnds` | ml_pipeline/1_dataset_generator.py:52-54 | `s[d:-3]` is the inner part when `s` holds at least d + 3 characters, and "" otherwise |
| `DatasetGenerator.CleanResponse` | ml_pipeline/1_dataset_generator.py:50-54 | the cleaned text is never longer than the reply and has no leading or trailing whitespace |
| `DatasetGenerator.CleanJsonFenced` | ml_pipeline/1_dataset_generator.py:50-52 | a stripped reply t opening with "```json" gives strip(t[7:len-3]) when longer than 10 characters, and "" otherwise |
| `DatasetGenerator.CleanPlainFenced` | ml_pipeline/1_dataset_generator.py:53-54 | a stripped reply t opening with "```" but not "```json" gives strip(t[3:len-3]) when longer than 6 characters, and "" otherwise |
| `DatasetGenerator.JsonFenceIsFence` | ml_pipeline/1_dataset_generator.py:51-54 | every text opening with "```json" also opens with "```", so the order of the two tests decides |
| `DatasetGenerator.CleanUnfenced` | ml_pipeline/1_dataset_generator.py:50-54 | a reply opening with neither fence is only stripped |
| `DatasetGenerator.CleanStripsJsonFence` | ml_pipeline/1_dataset_generator.py:50-52 | any body wrapped in "```json" and "```", including one surrounded by newlines, is cleaned to the stripped body |
| `DatasetGenerator.CleanUnwrapsJsonFence` | ml_pipeline/1_dataset_generator.py:50-52 | a trimmed body wrapped in "```json" and "```" is recovered exactly |
| `DatasetGenerator.PlainRuleKeepsJsonTag` | ml_pipeline/1_dataset_generator.py:51-54 | on such a reply the plain-fence rule would leave "json" in front of the body: the JSON test must come first |
| `DatasetGenerator.CleanStripsFence` | ml_pipeline/1_dataset_generator.py:53-54 | any body wrapped in "```" on both sides is cleaned to the stripped body unless the whole reads as a JSON fence |
| `DatasetGenerator.CleanUnwrapsFence` | ml_pipeline/1_dataset_generator.py:53-54 | a trimmed body wrapped in "```" on both sides is recovered exactly unless the whole reads as a JSON fence |
| `DatasetGenerator.CleanIsPieceOfResponse` | ml_pipeline/1_dataset_generator.py:50-54 | cleaning only cuts characters at the two ends: the result is a contiguous piece of the reply, every other character unchanged |
| `DatasetGenerator.FetchBatch` | ml_pipeline/1_dataset_generator.py:47-60 | a failed request or a rejected parse yields the empty batch; a non-empty batch is exactly what the parser made of the cleaned reply; no failure inside the `try` at 47-58 escapes |
| `DatasetGenerator.Fetched` | ml_pipeline/1_dataset_generator.py:69-71 | `k` requests give `k` batches |
| `DatasetGenerator.FetchedInOrder` | ml_pipeline/1_dataset_generator.py:69-71 | batch `i` is the batch made from the reply to request `i` |
| `DatasetGenerator.Collected` | ml_pipeline/1_dataset_generator.py:69-77 | the collected dataset holds as many records as all batches together |
| `DatasetGenerator.CollectedSnoc` | ml_pipeline/1_dataset_generator.py:73-77 | one more batch is appended at the end when non-empty and skipped when empty |
| `DatasetGenerator.CollectOneMore` | ml_pipeline/1_dataset_generator.py:69-77 | the dataset after request `i` is the dataset before it, extended by that request's batch when non-empty |
| `DatasetGenerator.CollectedIsFlatten` | ml_pipeline/1_dataset_generator.py:73-77 | the collected dataset is the in-order concatenation of all batches; the skipped empty ones contribute nothing |
| `DatasetGenerator.CollectedAppend` | ml_pipeline/1_dataset_generator.py:69-77 | collecting two consecutive runs of batches gives the first run's records followed by the second's |
| `DatasetGenerator.CollectedEmpty` | ml_pipeline/1_dataset_generator.py:73-77 | nothing is collected exactly when every batch is empty |
| `DatasetGenerator.StepsAlternate` | ml_pipeline/1_dataset_generator.py:69-81 | after `k` of `n` iterations the effects are alternately request and sleep, ending with a sleep before the last iteration and with a request after it |
| `DatasetGenerator.ScheduleShape` | ml_pipeline/1_dataset_generator.py:69-81 | a run of `n` iterations performs 2n - 1 effects alternating request and sleep; every sleep sits between two requests, none comes last |
| `DatasetGenerator.ScheduleCounts` | ml_pipeline/1_dataset_generator.py:69-81 | a run of `n` iterations makes exactly `n` requests and `n - 1` sleeps (none when `n` is 0) |
| `DatasetGenerator.GenerateDataset` | ml_pipeline/1_dataset_generator.py:62-91 | the dataset is the collection of the batches of the `iterations` requests in order; the effects are the request/sleep schedule; the output is written exactly when the dataset is non-empty, and it holds the dataset |
| `DatasetGenerator.ScriptRun` | ml_pipeline/1_dataset_generator.py:64-91 | the script's run makes 5 requests and 4 sleeps of 4 seconds, and writes a file exactly when some reply produced a non-empty batch |

## Left out

- Training (`ml_pipeline/2_train_local_ml.py`) is not part of this model. It only calls pandas and scikit-learn.
- The classifier's internals (TF-IDF features, the random forest) are not modelled. The engine sees only its probability pair. An exception raised inside `predict_proba` is not modelled.
- A classifier fitted on a single class is not modelled: the `Classifier` always yields a pair. For such a classifier `predict_proba` returns one column, so `probabilities[1]` at ml_pipeline/3_local_inference.py:30 raises IndexError and `predict_code` returns no verdict. Training on a dataset with one label (ml_pipeline/2_train_local_ml.py:27-29) produces such a classifier.
- Floating point is not modelled. Probabilities and `p * 100` are exact reals, so rounding in `p * 100` is not captured. A NaN probability is not modelled either: `int()` of NaN at ml_pipeline/3_local_inference.py:31 raises ValueError, so `predict_code` returns no verdict.
- LocalInference.Score: the band agreement (SAFE <= 39 in particular) holds for exact reals only. In IEEE doubles the largest float below 0.4 times 100 rounds to 40.0, so the program can report SAFE with score 40.
- The success message printed inside the load's `try` (ml_pipeline/3_local_inference.py:17) is not modelled. A failure to print it would also surface as the load error.
- `joblib.load` and `os.path.exists` are abstracted into `ModelStore`: a path exists exactly when the store holds an outcome for it. A path that exists but is not a readable file is a load failure.
- Exception messages are reduced to the path (not found) and the loader's cause (load error). The Russian message text is not modelled.
- The `__main__` demonstration in `ml_pipeline/3_local_inference.py` is not modelled. Its output depends on a trained model.
- Failures of `fetch_batch` outside its `try` are not modelled: creating the client with `genai.GenerativeModel(...)` at ml_pipeline/1_dataset_generator.py:18 runs before the `try`, and the handler's own `print` at ml_pipeline/1_dataset_generator.py:59 can raise (for example a UnicodeEncodeError on a stdout that cannot encode the message). Either would end the run.
- The generative-model client is not modelled: the API key from the environment, `genai.configure`, the prompt text and `batch_size` (which only appears in the prompt). Replies are the `network` function's values.
- `json.loads` is a parameter returning a list of records or nothing. A reply that parses to a JSON value other than a list is not modelled. Neither are records without the two keys, since the script does not check them.
- Printing, the sleep's duration in real time, and the CSV encoding of `DataFrame.to_csv` are not modelled. The sleep is an effect carrying its 4 seconds. The write is the output holding the dataset.
- `PyText.Strip` models `str.strip()` with its whitespace set written out. Unicode normalisation and surrogate code points are not modelled.

=== FILE: dataset_generator.dfy ===
/**
 * The synthetic dataset generator: it asks a generative model for batches of
 * labelled code examples, strips the Markdown code fence the model may wrap
 * its JSON in, and accumulates the batches that came back non-empty.
 */
module DatasetGenerator {
  import opened Wrappers
  import opened PyText

  /** Number of requests `main` makes. */
  const Iterations: nat := 5

  /** Seconds `main` sleeps between two consecutive requests. */
  const SleepSeconds: nat := 4

  /** Opening fence of a JSON code block, checked first. */
  const JsonFence: string := "```json"

  /** Opening fence of any code block. */
  const Fence: string := "```"

  /** One example as the generator asks for it: the "code" and "label" keys (0 clean, 1 malicious). */
  datatype Record = Record(code: string, labelValue: int)

  /** What one request to the generative model gives back. */
  datatype Reply = Answered(text: string) | RequestFailed(cause: string)

  /** Something `main` does that the outside world sees. */
  datatype Effect = Request | Sleep(seconds: nat)

  // ---------------------------------------------------------------------------
  // Cleaning a response
  // ---------------------------------------------------------------------------

  /**
   * The text handed to the JSON parser: the response stripped of surrounding
   * whitespace and, when it opens with a fence, with the first 7 ("```json")
   * or 3 ("```") and the last 3 characters removed and stripped again. The
   * JSON fence is tested first. The result is never longer than the response
   * and has no surrounding whitespace.
   */
  function CleanResponse(raw: string): (text: string)
    ensures |text| <= |raw|
    ensures Trimmed(text)
  {
    var text := Strip(raw);
    if StartsWith(text, JsonFence) then Strip(Slice(text, 7, -3))
    else if StartsWith(text, Fence) then Strip(Slice(text, 3, -3))
    else text
  }

  /** A response opening with "```json" loses that fence and the last 3 characters; one of at most 10 characters gives "". */
  lemma CleanJsonFenced(raw: string)
    requires StartsWith(Strip(raw), JsonFence)
    ensures var t := Strip(raw);
      CleanResponse(raw) == if |t| > 10 then Strip(t[7..|t| - 3]) else []
  {
    var t := Strip(raw);
    SliceDropsEnds(t, 7);
    if |t| <= 10 {
      assert Slice(t, 7, -3) == [];
      assert Strip([]) == [];
    }
  }

  /** A response opening with "```" but not "```json" loses 3 characters at each end; one of at most 6 characters gives "". */
  lemma CleanPlainFenced(raw: string)
    requires StartsWith(Strip(raw), Fence) && !StartsWith(Strip(raw), JsonFence)
    ensures var t := Strip(raw);
      CleanResponse(raw) == if |t| > 6 then Strip(t[3..|t| - 3]) else []
  {
    var t := Strip(raw);
    SliceDropsEnds(t, 3);
    if |t| <= 6 {
      assert Slice(t, 3, -3) == [];
      assert Strip([]) == [];
    }
  }

  /** Every text opening with the JSON fence opens with the plain fence too, hence the order of the tests. */
  lemma JsonFenceIsFence(t: string)
    requires StartsWith(t, JsonFence)
    ensures StartsWith(t, Fence)
  {
    assert t[..3] == t[..7][..3];
  }

  /** A response with no opening fence is only stripped. */
  lemma CleanUnfenced(raw: string)
    requires !StartsWith(Strip(raw), Fence)
    ensures CleanResponse(raw) == Strip(raw)
  {
    if StartsWith(Strip(raw), JsonFence) {
      JsonFenceIsFence(Strip(raw));
    }
  }

  /** Any body wrapped in a JSON fence gives a trimmed reply opening with the JSON fence. */
  lemma JsonFencedShape(body: string)
    ensures var raw := JsonFence + body + Fence;
      Strip(raw) == raw && StartsWith(raw, JsonFence) &&
      raw[7..|raw| - 3] == body && raw[3..|raw| - 3] == "json" + body
  {
    var raw := JsonFence + body + Fence;
    assert Trimmed(raw) by {
      assert raw[0] == '`' && raw[|raw| - 1] == '`';
    }
    StripTrimmed(raw);
    assert raw[..7] == JsonFence;
    assert raw[7..|raw| - 3] == body;
    assert raw[3..|raw| - 3] == "json" + body;
  }

  /**
   * Cleaning a body wrapped in "```json" and "```" gives the stripped body,
   * whatever whitespace (the usual newlines, say) surrounds it.
   */
  lemma CleanStripsJsonFence(body: string)
    ensures CleanResponse(JsonFence + body + Fence) == Strip(body)
  {
    JsonFencedShape(body);
    CleanJsonFenced(JsonFence + body + Fence);
    if |body| == 0 {
      assert Strip(body) == [];
    }
  }

  /** Cleaning undoes a JSON fence: a trimmed body wrapped in "```json" and "```" comes back unchanged. */
  lemma CleanUnwrapsJsonFence(body: string)
    requires Trimmed(body)
    ensures CleanResponse(JsonFence + body + Fence) == body
  {
    CleanStripsJsonFence(body);
    StripTrimmed(body);
  }

  /**
   * Why the JSON fence is tested first: on the same reply the plain-fence
   * rule alone would have kept "json" in front of the body.
   */
  lemma PlainRuleKeepsJsonTag(body: string)
    requires Trimmed(body)
    ensures Strip(Slice(JsonFence + body + Fence, 3, -3)) == "json" + body
  {
    var raw := JsonFence + body + Fence;
    JsonFencedShape(body);
    SliceDropsEnds(raw, 3);
    var tagged := "json" + body;
    assert Trimmed(tagged) by {
      assert tagged[0] == 'j';
      assert body != [] ==> tagged[|tagged| - 1] == body[|body| - 1];
    }
    StripTrimmed(tagged);
  }

  /**
   * Cleaning a body wrapped in "```" on both sides gives the stripped body,
   * unless the whole reads as a JSON fence.
   */
  lemma CleanStripsFence(body: string)
    requires !StartsWith(Fence + body + Fence, JsonFence)
    ensures CleanResponse(Fence + body + Fence) == Strip(body)
  {
    var raw := Fence + body + Fence;
    assert Trimmed(raw) by {
      assert raw[0] == '`' && raw[|raw| - 1] == '`';
    }
    StripTrimmed(raw);
    assert StartsWith(raw, Fence) by {
      assert raw[..3] == Fence;
    }
    CleanPlainFenced(raw);
    assert raw[3..|raw| - 3] == body;
    if |body| == 0 {
      assert Strip(body) == [];
    }
  }

  /** Cleaning undoes a plain fence around a trimmed body, unless the result reads as a JSON fence. */
  lemma CleanUnwrapsFence(body: string)
    requires Trimmed(body) && !StartsWith(Fence + body + Fence, JsonFence)
    ensures CleanResponse(Fence + body + Fence) == body
  {
    CleanStripsFence(body);
    StripTrimmed(body);
  }

  /** `u` occurs in `s` starting at index `i`. */
  ghost predicate PieceAt(u: string, s: string, i: nat) {
    i + |u| <= |s| && u == s[i..i + |u|]
  }

  /** A piece of a piece of `s` is a piece of `s`. */
  lemma PieceOfPiece(s: string, t: string, u: string, i: nat, j: nat)
    requires PieceAt(t, s, i) && PieceAt(u, t, j)
    ensures PieceAt(u, s, i + j)
  {
    forall k | 0 <= k < |u|
      ensures u[k] == s[i + j + k]
    {
      assert u[k] == t[j + k];
    }
  }

  /** The stripped text is a piece of the original. */
  lemma StripIsPiece(s: string)
    ensures PieceAt(Strip(s), s, LeadingSpaces(s))
  {
  }

  /** A slice is a piece of the original, starting at its normalised start. */
  lemma SliceIsPiece(s: string, i: int, j: int)
    ensures PieceAt(Slice(s, i, j), s, ClampIndex(i, |s|))
  {
  }

  /** Removing a fence of `d` characters, then stripping, leaves a piece of `t`. */
  lemma UnfenceIsPiece(t: string, d: int)
    ensures exists i :: PieceAt(Strip(Slice(t, d, -3)), t, i)
  {
    var u := Slice(t, d, -3);
    SliceIsPiece(t, d, -3);
    StripIsPiece(u);
    PieceOfPiece(t, u, Strip(u), ClampIndex(d, |t|), LeadingSpaces(u));
  }

  /** Cleaning removes characters only at the two ends: the result is a contiguous piece of the response. */
  lemma CleanIsPieceOfResponse(raw: string)
    ensures exists i :: PieceAt(CleanResponse(raw), raw, i)
  {
    var t := Strip(raw);
    StripIsPiece(raw);
    if StartsWith(t, Fence) {
      var d := if StartsWith(t, JsonFence) then 7 else 3;
      assert CleanResponse(raw) == Strip(Slice(t, d, -3));
      UnfenceIsPiece(t, d);
      var e :| PieceAt(CleanResponse(raw), t, e);
      PieceOfPiece(raw, t, CleanResponse(raw), LeadingSpaces(raw), e);
    } else {
      CleanUnfenced(raw);
    }
  }

  // ---------------------------------------------------------------------------
  // Fetching one batch
  // ---------------------------------------------------------------------------

  /**
   * `fetch_batch`: the parsed records of one reply. A cleaned text the parser
   * accepts gives exactly the records it parsed; a failed request, and a
   * cleaned text the parser rejects, both give the empty batch; nothing fails.
   */
  function FetchBatch(reply: Reply, parse: string -> Option<seq<Record>>): (batch: seq<Record>)
    ensures reply.RequestFailed? ==> batch == []
    ensures reply.Answered? && parse(CleanResponse(reply.text)).None? ==> batch == []
    ensures batch != [] ==> reply.Answered? && parse(CleanResponse(reply.text)) == Some(batch)
    ensures reply.Answered? && parse(CleanResponse(reply.text)).Some? ==> batch == parse(CleanResponse(reply.text)).value
  {
    match reply
    case RequestFailed(_) => []
    case Answered(text) =>
      match parse(CleanResponse(text))
      case None => []
      case Some(records) => records
  }

  /** The batches of the first `k` requests, in order; `network(i)` is the reply to request `i`. */
  function Fetched(k: nat, network: nat -> Reply, parse: string -> Option<seq<Record>>): (batches: seq<seq<Record>>)
    ensures |batches| == k
  {
    if k == 0 then [] else Fetched(k - 1, network, parse) + [FetchBatch(network(k - 1), parse)]
  }

  /** Batch `i` of the series is the batch of the reply to request `i`. */
  lemma {:induction false} FetchedInOrder(k: nat, network: nat -> Reply, parse: string -> Option<seq<Record>>)
    ensures forall i :: 0 <= i < k ==> Fetched(k, network, parse)[i] == FetchBatch(network(i), parse)
  {
    if k > 0 {
      FetchedInOrder(k - 1, network, parse);
      var init := Fetched(k - 1, network, parse);
      forall i | 0 <= i < k
        ensures Fetched(k, network, parse)[i] == FetchBatch(network(i), parse)
      {
        if i < k - 1 {
          assert Fetched(k, network, parse)[i] == init[i];
        }
      }
    }
  }

  // ---------------------------------------------------------------------------
  // Accumulating batches
  // ---------------------------------------------------------------------------

  /** Total number of records in `batches`. */
  function TotalLength(batches: seq<seq<Record>>): nat {
    if batches == [] then 0 else TotalLength(batches[..|batches| - 1]) + |batches[|batches| - 1]|
  }

  /** All batches, one after another. */
  function Flatten(batches: seq<seq<Record>>): seq<Record> {
    if batches == [] then [] else Flatten(batches[..|batches| - 1]) + batches[|batches| - 1]
  }

  /**
   * What `main` collects from a series of batches: every non-empty batch
   * appended in order, the empty (failed) ones skipped. It holds exactly the
   * records of all batches.
   */
  function Collected(batches: seq<seq<Record>>): (dataset: seq<Record>)
    ensures |dataset| == TotalLength(batches)
  {
    if batches == [] then []
    else
      var last := batches[|batches| - 1];
      if last != [] then Collected(batches[..|batches| - 1]) + last
      else Collected(batches[..|batches| - 1])
  }

  /** One more batch: appended when non-empty, skipped when empty. */
  lemma CollectedSnoc(batches: seq<seq<Record>>, batch: seq<Record>)
    ensures Collected(batches + [batch]) == if batch != [] then Collected(batches) + batch else Collected(batches)
  {
    assert (batches + [batch])[..|batches|] == batches;
  }

  /** The dataset after one more request: its batch appended when non-empty. */
  lemma CollectOneMore(i: nat, network: nat -> Reply, parse: string -> Option<seq<Record>>)
    ensures var batch := FetchBatch(network(i), parse);
      Collected(Fetched(i + 1, network, parse)) ==
        if batch != [] then Collected(Fetched(i, network, parse)) + batch else Collected(Fetched(i, network, parse))
  {
    CollectedSnoc(Fetched(i, network, parse), FetchBatch(network(i), parse));
  }

  /** Skipping empty batches changes nothing: the collected dataset is the concatenation of all batches. */
  lemma {:induction false} CollectedIsFlatten(batches: seq<seq<Record>>)
    ensures Collected(batches) == Flatten(batches)
  {
    if batches != [] {
      CollectedIsFlatten(batches[..|batches| - 1]);
    }
  }

  /** Collecting distributes over consecutive runs of batches. */
  lemma {:induction false} CollectedAppend(first: seq<seq<Record>>, second: seq<seq<Record>>)
    ensures Collected(first + second) == Collected(first) + Collected(second)
  {
    if second == [] {
      assert first + second == first;
    } else {
      var init := second[..|second| - 1];
      assert (first + second)[..|first + second| - 1] == first + init;
      CollectedAppend(first, init);
    }
  }

  /** Nothing is collected exactly when every batch is empty. */
  lemma {:induction false} CollectedEmpty(batches: seq<seq<Record>>)
    ensures Collected(batches) == [] <==> forall i :: 0 <= i < |batches| ==> batches[i] == []
  {
    if batches != [] {
      var init := batches[..|batches| - 1];
      CollectedEmpty(init);
      assert forall i :: 0 <= i < |init| ==> init[i] == batches[i];
    }
  }

  // ---------------------------------------------------------------------------
  // The request / sleep schedule
  // ---------------------------------------------------------------------------

  /**
   * The effects of the first `k` of `n` iterations: each makes one request,
   * then sleeps unless it is the last.
   */
  function Steps(k: nat, n: nat): seq<Effect> {
    if k == 0 then []
    else
      var requested := Steps(k - 1, n) + [Request];
      if k < n then requested + [Sleep(SleepSeconds)] else requested
  }

  /** The effects of a whole run of `n` iterations. */
  function Schedule(n: nat): seq<Effect> {
    Steps(n, n)
  }

  /** Requests and sleeps strictly alternating, starting with a request. */
  function Alternating(len: nat): (s: seq<Effect>)
    ensures |s| == len
    ensures forall j :: 0 <= j < len ==> s[j] == if j % 2 == 0 then Request else Sleep(SleepSeconds)
  {
    seq(len, j => if j % 2 == 0 then Request else Sleep(SleepSeconds))
  }

  /** Before the last iteration every step ends with a sleep; the last ends with its request. */
  lemma {:induction false} StepsAlternate(k: nat, n: nat)
    requires k <= n
    ensures Steps(k, n) == Alternating(if k < n then 2 * k else if n == 0 then 0 else 2 * n - 1)
  {
    if k > 0 {
      StepsAlternate(k - 1, n);
      var before := Alternating(2 * (k - 1));
      if k < n {
        assert Steps(k, n) == before + [Request] + [Sleep(SleepSeconds)];
      } else {
        assert Steps(k, n) == before + [Request];
      }
    }
  }

  /**
   * A run of `n` iterations makes `n` requests and sleeps only between two
   * consecutive requests: 2n - 1 effects alternating request and sleep, the
   * first and the last of them a request.
   */
  lemma ScheduleShape(n: nat)
    ensures |Schedule(n)| == if n == 0 then 0 else 2 * n - 1
    ensures forall j :: 0 <= j < |Schedule(n)| ==>
      Schedule(n)[j] == if j % 2 == 0 then Request else Sleep(SleepSeconds)
    ensures forall j :: 0 <= j < |Schedule(n)| && Schedule(n)[j].Sleep? ==>
      0 < j < |Schedule(n)| - 1 && Schedule(n)[j - 1] == Request && Schedule(n)[j + 1] == Request
  {
    StepsAlternate(n, n);
  }

  /** Occurrences of `e` in `s`. */
  function Count(s: seq<Effect>, e: Effect): nat {
    if s == [] then 0 else Count(s[..|s| - 1], e) + (if s[|s| - 1] == e then 1 else 0)
  }

  /** An alternating sequence of length `len` holds (len + 1) / 2 requests and len / 2 sleeps. */
  lemma {:induction false} AlternatingCounts(len: nat)
    ensures Count(Alternating(len), Request) == (len + 1) / 2
    ensures Count(Alternating(len), Sleep(SleepSeconds)) == len / 2
  {
    if len > 0 {
      AlternatingCounts(len - 1);
      assert Alternating(len)[..len - 1] == Alternating(len - 1);
    }
  }

  /** A run of `n` iterations makes exactly `n` requests and `n - 1` sleeps (none for an empty run). */
  lemma ScheduleCounts(n: nat)
    ensures Count(Schedule(n), Request) == n
    ensures Count(Schedule(n), Sleep(SleepSeconds)) == if n == 0 then 0 else n - 1
  {
    StepsAlternate(n, n);
    AlternatingCounts(if n == 0 then 0 else 2 * n - 1);
  }

  // ---------------------------------------------------------------------------
  // main
  // ---------------------------------------------------------------------------

  /**
   * `main` with `iterations` requests (the script uses `Iterations`). The
   * dataset holds the non-empty batches in request order; the effects are
   * one request per iteration with a sleep between consecutive ones; the
   * dataset is written out exactly when it is non-empty.
   */
  method GenerateDataset(iterations: nat, network: nat -> Reply, parse: string -> Option<seq<Record>>)
    returns (dataset: seq<Record>, effects: seq<Effect>, output: Option<seq<Record>>)
    ensures dataset == Collected(Fetched(iterations, network, parse))
    ensures effects == Schedule(iterations)
    ensures output.Some? <==> dataset != []
    ensures output.Some? ==> output.value == dataset
  {
    dataset := [];
    effects := [];
    for i := 0 to iterations
      invariant dataset == Collected(Fetched(i, network, parse))
      invariant effects == Steps(i, iterations)
    {
      effects := effects + [Request];
      var batch := FetchBatch(network(i), parse);
      CollectOneMore(i, network, parse);
      if batch != [] {
        dataset := dataset + batch;
      }
      if i < iterations - 1 {
        effects := effects + [Sleep(SleepSeconds)];
      }
    }
    if dataset != [] {
      output := Some(dataset);
    } else {
      output := None;
    }
  }

  /**
   * The script's run: 5 requests, 4 sleeps of 4 seconds, and a file written
   * exactly when some reply produced a non-empty batch.
   */
  lemma ScriptRun(network: nat -> Reply, parse: string -> Option<seq<Record>>)
    ensures Count(Schedule(Iterations), Request) == 5
    ensures Count(Schedule(Iterations), Sleep(4)) == 4
    ensures Collected(Fetched(Iterations, network, parse)) != [] <==>
      exists i :: 0 <= i < Iterations && FetchBatch(network(i), parse) != []
  {
    ScheduleCounts(Iterations);
    CollectedEmpty(Fetched(Iterations, network, parse));
    FetchedInOrder(Iterations, network, parse);
  }
}

=== FILE: local_inference.dfy ===
/**
 * The local inference engine: it loads a persisted classifier once and turns
 * the classifier's malicious-class probability for a code snippet into a
 * verdict (status band, integer risk score, the probability itself).
 */
module LocalInference {
  import opened Wrappers

  /** Path the engine loads from when the caller names none. */
  const DefaultModelPath: string := "flux_local_model.pkl"

  /** A probability strictly above this is CRITICAL. */
  const CriticalAbove: real := 0.70

  /** A probability from this value up to `CriticalAbove`, both included, is SUSPICIOUS. */
  const SuspiciousFrom: real := 0.40

  /** The verdict's status band. */
  datatype Status = Safe | Suspicious | Critical {
    /** The string the engine reports. */
    function Label(): string {
      match this
      case Safe => "SAFE"
      case Suspicious => "SUSPICIOUS"
      case Critical => "CRITICAL"
    }

    /** Order of the bands, from harmless to dangerous. */
    function Severity(): nat {
      match this
      case Safe => 0
      case Suspicious => 1
      case Critical => 2
    }
  }

  /** The dictionary `predict_code` returns. */
  datatype Verdict = Verdict(status: Status, riskScore: int, probability: real)

  /**
   * The loaded, fitted pipeline. Only its `predict_proba` on a single snippet
   * is used: the pair (benign probability, malicious probability).
   */
  datatype Classifier = Classifier(predictProba: string -> (real, real))

  /** Python's `int(x)` on a float: truncation toward zero. */
  function Truncate(x: real): (n: int)
    ensures 0.0 <= x ==> 0 <= n && n as real <= x < n as real + 1.0
    ensures x < 0.0 ==> n <= 0 && n as real - 1.0 < x <= n as real
  {
    if x >= 0.0 then x.Floor else -((-x).Floor)
  }

  /**
   * The status band of a malicious-class probability. The three bands are
   * disjoint and cover every probability: CRITICAL strictly above 0.70,
   * SUSPICIOUS from 0.40 to 0.70 with both ends included, SAFE below 0.40.
   */
  function StatusOf(p: real): (s: Status)
    ensures s == Critical <==> p > CriticalAbove
    ensures s == Suspicious <==> SuspiciousFrom <= p <= CriticalAbove
    ensures s == Safe <==> p < SuspiciousFrom
  {
    if p > CriticalAbove then Critical
    else if SuspiciousFrom <= p <= CriticalAbove then Suspicious
    else Safe
  }

  /**
   * The integer risk score: `p * 100` truncated, not rounded. For a
   * non-negative probability it is the largest integer not above `p * 100`;
   * for a probability in [0, 1] it lies in [0, 100].
   */
  function RiskScore(p: real): (score: int)
    ensures 0.0 <= p ==> score as real <= p * 100.0 < score as real + 1.0
    ensures 0.0 <= p <= 1.0 ==> 0 <= score <= 100
  {
    Truncate(p * 100.0)
  }

  /** The risk score agrees with the status band. */
  ghost predicate ScoreFitsBand(v: Verdict) {
    && (v.status == Safe ==> v.riskScore <= 39)
    && (v.status == Suspicious ==> 40 <= v.riskScore <= 70)
    && (v.status == Critical ==> 70 <= v.riskScore && (v.probability <= 1.0 ==> v.riskScore <= 100))
  }

  /**
   * The verdict for a malicious-class probability: the probability itself,
   * its band, and a risk score that agrees with the band.
   */
  function Score(p: real): (v: Verdict)
    ensures v.probability == p
    ensures ScoreFitsBand(v)
    ensures 0.0 <= p <= 1.0 ==> 0 <= v.riskScore <= 100
  {
    Verdict(StatusOf(p), RiskScore(p), p)
  }

  /** The severity of the band never decreases as the probability grows. */
  lemma StatusMonotone(p: real, q: real)
    requires p <= q
    ensures StatusOf(p).Severity() <= StatusOf(q).Severity()
  {
  }

  /** Both ends of the SUSPICIOUS band are SUSPICIOUS; just above 0.70 is CRITICAL. */
  lemma BandBoundaries()
    ensures StatusOf(0.40) == Suspicious && StatusOf(0.70) == Suspicious
    ensures StatusOf(0.70 + 0.000001) == Critical
    ensures StatusOf(0.40 - 0.000001) == Safe
  {
  }

  /**
   * The score truncates: 0.999 scores 99 (rounding would give 100), and
   * 0.705 is CRITICAL with score 70, the score 0.70 itself gets as SUSPICIOUS.
   */
  lemma ScoreTruncates()
    ensures Score(0.999).riskScore == 99
    ensures Score(0.705) == Verdict(Critical, 70, 0.705)
    ensures Score(0.70) == Verdict(Suspicious, 70, 0.70)
  {
    assert Truncate(99.9) == 99;
    assert Truncate(70.5) == 70;
    assert Truncate(70.0) == 70;
  }

  /** What loading one path yields: the unpickled classifier, or the exception's message. */
  datatype LoadOutcome = Loaded(classifier: Classifier) | LoadFailed(cause: string)

  /** Why constructing an engine fails. */
  datatype EngineError =
    | ModelNotFound(path: string)   // FileNotFoundError: nothing at the path
    | ModelLoadError(cause: string) // RuntimeError wrapping the load failure

  /** What a load of `path` yields from a store holding `files`. */
  function LoadOf(files: map<string, LoadOutcome>, path: string): (o: LoadOutcome)
    ensures path in files ==> o == files[path]
    ensures path !in files ==> o.LoadFailed?
  {
    if path in files then files[path] else LoadFailed("No such file or directory")
  }

  /**
   * The outcome of constructing an engine on `path`: not found exactly when
   * the path does not exist, whatever loading would have done; a load error
   * exactly when it exists and loading fails; otherwise the loaded classifier.
   */
  function Construct(files: map<string, LoadOutcome>, path: string): (r: Result<Classifier, EngineError>)
    ensures r.Failure? && r.error.ModelNotFound? <==> path !in files
    ensures path !in files ==> r.error.path == path
    ensures r.Failure? && r.error.ModelLoadError? <==> path in files && files[path].LoadFailed?
    ensures r.Success? ==> path in files && files[path] == Loaded(r.value)
  {
    if path !in files then Failure(ModelNotFound(path))
    else match files[path]
      case LoadFailed(e) => Failure(ModelLoadError(e))
      case Loaded(c) => Success(c)
  }

  /**
   * The existence check comes first: for a missing path, the result does not
   * depend on what loading any file would yield.
   */
  lemma MissingPathIgnoresLoads(files: map<string, LoadOutcome>, other: map<string, LoadOutcome>, path: string)
    requires path !in files && path !in other
    ensures Construct(files, path) == Construct(other, path) == Failure(ModelNotFound(path))
  {
  }

  /**
   * The file system together with the unpickler: which paths exist, what
   * loading each yields, and how many loads have been attempted.
   */
  class ModelStore {
    const files: map<string, LoadOutcome>
    var loadAttempts: nat

    constructor (files: map<string, LoadOutcome>)
      ensures this.files == files && loadAttempts == 0
    {
      this.files := files;
      loadAttempts := 0;
    }

    /** `os.path.exists(path)`. */
    predicate Exists(path: string)
      ensures !Exists(path) <==> Construct(files, path) == Failure(ModelNotFound(path))
    {
      path in files
    }

    /** `joblib.load(path)`: one more attempt, yielding what the store holds. */
    method Load(path: string) returns (o: LoadOutcome)
      modifies this`loadAttempts
      ensures loadAttempts == old(loadAttempts) + 1
      ensures o == LoadOf(files, path)
    {
      loadAttempts := loadAttempts + 1;
      o := LoadOf(files, path);
    }
  }

  /** The inference engine. Its model is assigned once, at construction, and never changes. */
  class Engine {
    const model: Classifier

    constructor (model: Classifier)
      ensures this.model == model
    {
      this.model := model;
    }

    /**
     * Construction from a path: the existence check, then one load attempt.
     * A missing path fails with ModelNotFound and attempts no load; an
     * existing one is loaded exactly once, and a failing load is reported as
     * ModelLoadError; otherwise a new engine holds the loaded classifier.
     */
    static method Open(store: ModelStore, path: string) returns (r: Result<Engine, EngineError>)
      modifies store
      ensures store.loadAttempts == old(store.loadAttempts) + (if store.Exists(path) then 1 else 0)
      ensures r.Success? <==> Construct(store.files, path).Success?
      ensures r.Success? ==> fresh(r.value) && r.value.model == Construct(store.files, path).value
      ensures r.Failure? ==> r.error == Construct(store.files, path).error
    {
      if !store.Exists(path) {
        return Failure(ModelNotFound(path));
      }
      var outcome := store.Load(path);
      match outcome
      case LoadFailed(e) =>
        r := Failure(ModelLoadError(e));
      case Loaded(c) =>
        var engine := new Engine(c);
        r := Success(engine);
    }

    /** Construction with the default path, `FluxLocalEngine()`. */
    static method OpenDefault(store: ModelStore) returns (r: Result<Engine, EngineError>)
      modifies store
      ensures store.loadAttempts == old(store.loadAttempts) + (if store.Exists(DefaultModelPath) then 1 else 0)
      ensures r.Success? <==> Construct(store.files, DefaultModelPath).Success?
      ensures r.Success? ==> fresh(r.value) && r.value.model == Construct(store.files, DefaultModelPath).value
      ensures r.Failure? ==> r.error == Construct(store.files, DefaultModelPath).error
    {
      r := Open(store, DefaultModelPath);
    }

    /**
     * `predict_code`: the verdict on a snippet. The probability reported is
     * the classifier's malicious-class entry unchanged; status and score are
     * derived from it, and the status is reported as "CRITICAL",
     * "SUSPICIOUS" or "SAFE" by the band's thresholds. A function of the snippet and the fixed model, so
     * repeated calls give the same verdict and nothing is modified.
     */
    function PredictCode(code: string): (r: Verdict)
      ensures r.probability == model.predictProba(code).1
      ensures r.status == StatusOf(r.probability)
      ensures r.riskScore == RiskScore(r.probability)
      ensures ScoreFitsBand(r)
      ensures r.status.Label() == "CRITICAL" <==> r.probability > CriticalAbove
      ensures r.status.Label() == "SUSPICIOUS" <==> SuspiciousFrom <= r.probability <= CriticalAbove
      ensures r.status.Label() == "SAFE" <==> r.probability < SuspiciousFrom
    {
      Score(model.predictProba(code).1)
    }
  }

  /** Two engines holding the same classifier give the same verdict on every snippet. */
  lemma SameModelSameVerdict(e1: Engine, e2: Engine, code: string)
    requires e1.model == e2.model
    ensures e1.PredictCode(code) == e2.PredictCode(code)
  {
  }
}

=== FILE: py_text.dfy ===
/**
 * The few pieces of Python's `str` behaviour the response cleaning relies on:
 * `str.strip()` with no argument, `str.startswith` and slicing `s[i:j]` with
 * Python's clamping of out-of-range and negative indices.
 */
module PyText {

  /** The characters `str.strip()` removes: those for which `str.isspace()` holds. */
  predicate IsSpace(c: char) {
    || ('\t' <= c <= '\r')
    || ('\U{1C}' <= c <= '\U{1F}')
    || c == ' '
    || c == '\U{85}'
    || c == '\U{A0}'
    || c == '\U{1680}'
    || ('\U{2000}' <= c <= '\U{200A}')
    || c == '\U{2028}'
    || c == '\U{2029}'
    || c == '\U{202F}'
    || c == '\U{205F}'
    || c == '\U{3000}'
  }

  /** Every character of `s` is whitespace. */
  predicate AllSpace(s: string) {
    forall i :: 0 <= i < |s| ==> IsSpace(s[i])
  }

  /** Neither the first nor the last character of `s` is whitespace. */
  predicate Trimmed(s: string) {
    s == [] || (!IsSpace(s[0]) && !IsSpace(s[|s| - 1]))
  }

  /** `s.startswith(prefix)`. */
  predicate StartsWith(s: string, prefix: string)
    ensures StartsWith(s, prefix) <==> |prefix| <= |s| && forall i :: 0 <= i < |prefix| ==> s[i] == prefix[i]
  {
    |prefix| <= |s| && s[..|prefix|] == prefix
  }

  /** Length of the longest all-whitespace prefix of `s`. */
  function LeadingSpaces(s: string): (k: nat)
    ensures k <= |s|
    ensures AllSpace(s[..k])
    ensures k < |s| ==> !IsSpace(s[k])
  {
    if s != [] && IsSpace(s[0]) then 1 + LeadingSpaces(s[1..]) else 0
  }

  /** Length of the longest all-whitespace suffix of `s`. */
  function TrailingSpaces(s: string): (k: nat)
    ensures k <= |s|
    ensures AllSpace(s[|s| - k..])
    ensures k < |s| ==> !IsSpace(s[|s| - 1 - k])
  {
    if s != [] && IsSpace(s[|s| - 1]) then 1 + TrailingSpaces(s[..|s| - 1]) else 0
  }

  /**
   * `s.strip()`: the part of `s` left once every leading and every trailing
   * whitespace character is removed. The result is the slice of `s` starting
   * at `LeadingSpaces(s)`; what lies before and after it is all whitespace,
   * and it neither starts nor ends with whitespace.
   */
  function Strip(s: string): (r: string)
    ensures |r| <= |s| && LeadingSpaces(s) + |r| <= |s|
    ensures r == s[LeadingSpaces(s)..LeadingSpaces(s) + |r|]
    ensures AllSpace(s[..LeadingSpaces(s)]) && AllSpace(s[LeadingSpaces(s) + |r|..])
    ensures Trimmed(r)
  {
    var lo := LeadingSpaces(s);
    var rest := s[lo..];
    var r := rest[..|rest| - TrailingSpaces(rest)];
    assert r == [] ==> AllSpace(rest);
    assert r != [] ==> r[0] == s[lo];
    r
  }

  /** Stripping a string that has no surrounding whitespace leaves it unchanged. */
  lemma StripTrimmed(s: string)
    requires Trimmed(s)
    ensures Strip(s) == s
  {
    assert LeadingSpaces(s) == 0;
    assert TrailingSpaces(s) == 0;
  }

  /** `Strip` is idempotent. */
  lemma StripIdempotent(s: string)
    ensures Strip(Strip(s)) == Strip(s)
  {
    StripTrimmed(Strip(s));
  }

  /** Python's normalisation of a slice bound `i` against a length `n`. */
  function ClampIndex(i: int, n: nat): (k: nat)
    ensures k <= n
  {
    if i < 0 then (if i + n < 0 then 0 else i + n)
    else if i > n then n
    else i
  }

  /**
   * `s[i:j]` with step 1: both bounds are normalised (negative ones count from
   * the end, out-of-range ones are clamped), and an empty string results when
   * the normalised start is not before the normalised stop. Never fails.
   */
  function Slice(s: string, i: int, j: int): (r: string)
    ensures |r| <= |s|
    ensures ClampIndex(i, |s|) + |r| <= |s|
    ensures r == s[ClampIndex(i, |s|)..ClampIndex(i, |s|) + |r|]
    ensures |r| == if ClampIndex(i, |s|) <= ClampIndex(j, |s|) then ClampIndex(j, |s|) - ClampIndex(i, |s|) else 0
  {
    var lo, hi := ClampIndex(i, |s|), ClampIndex(j, |s|);
    if lo < hi then s[lo..hi] else []
  }

  /**
   * Dropping `d` characters at the front and 3 at the back, as `s[d:-3]`
   * does: the inner part when `s` is long enough to hold both, otherwise "".
   */
  lemma SliceDropsEnds(s: string, d: nat)
    ensures |s| >= d + 3 ==> Slice(s, d, -3) == s[d..|s| - 3]
    ensures |s| <= d + 3 ==> Slice(s, d, -3) == []
  {
  }
}

=== FILE: wrappers.dfy ===
/** Failure-carrying results used where the Python code raises or swallows exceptions. */
module Wrappers {

  /** A value that may be absent. */
  datatype Option<+T> = None | Some(value: T)

  /** Either a successful value or the error that the Python code would raise. */
  datatype Result<+R, +E> = Success(value: R) | Failure(error: E)
}
